=== FILE: README.md ===
# Verified model of the chat server, the two URL shorteners and the blog slug generator

This project models, in Dafny, the stateful core of four small Python web applications and
proves what their code guarantees.

- **Chat server** (`Chat_project/chat_demo/views.py`, aiohttp). The shared registry holds three dicts:
  - `request.app['websockets']`: room → ordered dict name → websocket;
  - `admin_dict`: room → admin;
  - `archive_dict`: room → list of archived lines.

  One `index` call takes these steps on the registry:
  - the join handshake, with its three refusals: bad name length, full room, name taken;
  - each turn of the receive loop: kick command, ignored command, chat text, kicked session, close;
  - the teardown.

  `archive_message` and `users_lst` are modelled with them. The registry is the class
  `ChatServer.Registry`, and each step is a method on it. Messages the server writes to websockets
  are returned as a list of `Delivery` values, in order. The dict of one room is `ChatRoom.Members`:
  the key list in insertion order plus the name → connection map.
- **SQL URL shortener** (`hw2/hw2.py`, Django with raw SQL): `check_url`, `random_url`, `find_url`,
  `handler` and `url_handler`. The `url_shortener` table is the class `SqlShortener.UrlTable`.
- **ORM URL shortener** (`hw3/short_url_project/shortener/views.py`): the same helpers, the
  per-user `handler`, and a `url_handler` that counts redirects in `redirect_count`. The table is
  `OrmShortener.UrlStore`, a list of records each holding a link, its owner and its redirect count.
  `check_url`, lower-casing and `random_url` are word for word the same in both shorteners and are
  modelled once, in `UrlKeys`; `find_url` differs only in the table it queries and is modelled once
  over the (original URL, key) pairs, in `ShortLinks`, together with the table invariant both
  handlers keep.
- **Blog** (`hw4/blog_project/blog/models.py`): `Post.save`, which gives a new post the slug
  `slugify(title)` and appends `-<randint(1, 100)>` while that slug is taken. `Post` and the
  `blog_post` table are classes, and the slug loop is a `while` loop with its invariants.

Randomness, the clock and the transliterating `slugify` are parameters:

- `random_url`'s successive random strings are a finite sequence `draws`;
- `randint`'s result is a nondeterministic choice in 1..100;
- the archive's time stamp is a `stamp` argument;
- `slugify` is a function argument.

`ChatScenario` runs one room through these contracts: Alice creates it, Bob joins, a refused join,
a message, a kick, a kick forged by a non-admin, and both leaving.

Where the behaviour is surprising, the model follows the code:

- **The archive survives its room.** The teardown deletes the room and its admin entry, but not
  its archive (views.py:174-176). The archive is reset only when a later join recreates the room
  (views.py:106).
- **A kick trusts the payload.** The command is honoured when the payload's own `user` field equals
  the admin of the payload's `chat_name` (views.py:133-137). Who sent the frame is never checked,
  and `ChatScenario.ForgedKick` shows Bob removing Alice.
- **A command rebinds `chat`.** Any JSON frame with `chat_name` rebinds the handler's `chat`
  variable (views.py:133). Later turns and the teardown then act on that room. `Inbound.Target`
  models this rebinding. `msg.json()` decodes binary frames too, so a command may arrive in a
  binary frame; it then acts like the same command in a text frame, except that in the `except`
  branch it fails the frame-type test (views.py:154) and ends the loop on the rebound room.
- **A kicked session never breaks out of the loop.** The membership test (views.py:142) comes
  before the frame-type test. So while its room exists, every later frame that reaches the
  `except` branch, a close frame included, re-sends the "kick you" interrupt and a `disconnect`
  broadcast (views.py:142-151), and the loop goes on. Once the room has been deleted (views.py:175),
  its next such frame raises an uncaught KeyError at views.py:142 and the handler ends with nothing
  sent; `Receive` reports that as `Crash`. A kick command whose `try` block runs through (views.py:133-137) sends
  nothing: one whose `user` is not the admin, and one that deletes a member. A `del` of
  a name that is gone, in the teardown, raises; `Leave` reports that as `crashed`, and `Listen`
  proves a session's own teardown never hits it.
- **An emptied room is recreated.** A room whose dict is empty but still registered is falsy at
  views.py:72. The next join recreates it, with a new admin and an empty archive.
- **`find_url` truthiness.** `find_url` returns `record[1]` or `False`, and callers test it for
  truthiness. A stored empty URL would read as "not found"; `check_url` makes that impossible, and
  `TakenIffStored` proves it.

## Model

| member | source | states |
|---|---|---|
| ChatRoom.Single | Chat_project/chat_demo/views.py:102 | a new room's dict is well formed and holds exactly the joiner under their websocket |
| ChatRoom.Insert | Chat_project/chat_demo/views.py:98 | adding a new name keeps the dict well formed, maps the name to its websocket, puts it last in key order, and adds one to `len` |
| ChatRoom.Without | Chat_project/chat_demo/views.py:137 | deleting a key keeps exactly the other names, keeps them distinct, shortens the list by one when the name was present, and changes nothing otherwise |
| ChatRoom.WithoutAt | Chat_project/chat_demo/views.py:137 | after the `del`, the names before and after the deleted one stay in their insertion order, so later `users_lst` calls and fan-outs keep dict order |
| ChatRoom.Remove | Chat_project/chat_demo/views.py:167 | `del chat_dict[name]` keeps the dict well formed, removes exactly that key, and lowers `len` by one |
| ChatRoom.Targets | Chat_project/chat_demo/views.py:156-157 | the websockets a loop over `chat_dict.values()` writes to are exactly the members' websockets, minus the skipped one; with nothing skipped there is one per member |
| ChatRoom.TargetsInOrder | Chat_project/chat_demo/views.py:122-124 | with nothing skipped, the i-th websocket written to is that of the i-th name in dict order |
| ChatRoom.TargetsMissSkip | Chat_project/chat_demo/views.py:156-157 | when no member uses the skipped websocket, the `ws is not ws_current` test skips nobody |
| ChatRoom.SkipIsWithout | Chat_project/chat_demo/views.py:156-157 | skipping the websocket that only one member uses writes to the same websockets, in the same order, as a loop over the dict without that member |
| ChatRoom.TargetsSkipOne | Chat_project/chat_demo/views.py:155-157 | when one member alone uses the skipped websocket, every other member is written to exactly once, in dict order |
| ChatRoom.CountIsKeys | Chat_project/chat_demo/views.py:75 | `len(chat_dict)` is the number of distinct members, so the capacity check counts members |
| ChatArchive.Entry | Chat_project/chat_demo/views.py:33-35 | an archived line starts with `(` and the time stamp and ends with the message itself |
| ChatArchive.Archived | Chat_project/chat_demo/views.py:34-38 | appending grows the list by one, unless it would exceed the cap, in which case exactly the oldest line is dropped; the result is the newest part of old list plus the line, in order, within the cap, ending with the new line |
| ChatArchive.Newest | Chat_project/chat_demo/views.py:36-37 | the reference "newest k lines" holds min(len, k) lines |
| ChatArchive.ArchivedAllKeepsNewest | Chat_project/chat_demo/views.py:33-38 | after any number of messages, a capped archive is exactly the newest `max_length` of all lines it was ever given, oldest first |
| ChatArchive.RenderAppend | Chat_project/chat_demo/views.py:111 | the `<br>`-joined history of a room grows by a separator and the new line when a line is archived |
| ChatServer.Notify | Chat_project/chat_demo/views.py:122-124 | a broadcast sends the event once to each target, in dict order |
| ChatServer.ExceptSender | Chat_project/chat_demo/views.py:155-159 | the `sent` fan-out of a member who alone uses its websocket gives the same deliveries, in the same order, as a broadcast to the room without the sender |
| ChatServer.Registry.constructor | Chat_project/chat_demo/__main__.py:17 | the registry starts with no rooms, no admins and no archives, which is well formed |
| ChatServer.Registry.UsersList | Chat_project/chat_demo/views.py:13-15 | `users_lst` lists each member once, exactly the members of the room, never more than `MAX_USER` |
| ChatServer.Registry.Join | Chat_project/chat_demo/views.py:55-124 | a name outside 3..8 characters, a full room (100 members) or a name already present is refused with its interrupt message and changes nothing; otherwise exactly name → websocket is added (a missing or empty room is recreated with the joiner as admin, replacing the admin entry an emptied room still has, and an empty archive; joining a populated room leaves admin and archive alone); the joiner gets `connect` with the admin and the replayed archive, then every member gets `join` with the member list; a fresh websocket belongs to the new member alone |
| ChatServer.Registry.Admit | Chat_project/chat_demo/views.py:93-106 | the registry update of an accepted join: insert into a populated room, or create the room, its admin entry and an empty archive |
| ChatServer.Registry.ArchiveMessage | Chat_project/chat_demo/views.py:18-39 | only the named room's archive changes, to `Archived` of its old list and the formatted line; rooms and admins are untouched; with the handler's cap (at most 100) the registry stays well formed |
| ChatServer.Registry.Receive | Chat_project/chat_demo/views.py:128-161 | a kick whose payload `user` is the room's admin deletes exactly `kick_user`; a kick from anyone else changes nothing; other frames go to `Relay`; no turn writes an admin entry or adds a member; a loop break happens only while the session is still in its room; the session's ownership of its websocket is preserved |
| ChatServer.Registry.Kick | Chat_project/chat_demo/views.py:136-137 | the kick removes one member of one room, keeps admins and archives, never adds a member, and keeps every websocket's owner |
| ChatServer.Registry.Relay | Chat_project/chat_demo/views.py:138-161 | a vanished room raises (crash, nothing changes); a session no longer in its room is told which admin kicked it and the room is sent `disconnect`; a member's text is archived and sent to every other member; any other frame, a command in a binary frame included, breaks the loop on the room `chat` now names |
| ChatServer.Registry.Leave | Chat_project/chat_demo/views.py:166-176 | with more than one member the leaver alone is deleted and the rest get `disconnect` with the new member list; otherwise the room and its admin entry are deleted and the archive kept; a session that still owns its websocket in the room never crashes here |
| ChatServer.Registry.Serve | Chat_project/chat_demo/views.py:42-178 | a whole connection on a new websocket: the join is refused exactly when the room name is not 3 to 8 characters long, the room is full, or the name is taken; a refused join sends one interrupt to the joiner and changes nothing; an accepted join with nothing received yet leaves the joiner registered (added to a populated room, or as sole member and admin of a recreated room with an empty archive) and the loop waiting; a connection whose frames are all text or close frames never crashes when no other session acts meanwhile |
| ChatServer.Registry.Listen | Chat_project/chat_demo/views.py:128-176 | the receive loop and teardown keep the registry well formed and never change the session's name or websocket; with nothing received the loop is waiting and nothing has changed; when no frame is a command and no other session acts meanwhile, the session never crashes, because a break happens only while it is still a member, so the teardown's `del` succeeds, and a loop still waiting has `chat` where it joined |
| ChatScenario.OneMember | Chat_project/chat_demo/views.py:99-106 | the first joiner of a room is its only member and its admin, with an empty archive |
| ChatScenario.TwoMembers | Chat_project/chat_demo/views.py:93-98 | a second joiner is listed after the first, and the admin stays |
| ChatScenario.AliceKicksBob | Chat_project/chat_demo/views.py:133-137 | the admin's kick leaves the room holding only the admin |
| UrlKeys.StartsWithAny | hw3/short_url_project/shortener/views.py:60 | `str.startswith` with a tuple holds exactly when some prefix in the tuple matches |
| UrlKeys.CheckUrl | hw3/short_url_project/shortener/views.py:53-60 | `check_url` accepts exactly the URLs starting with `http://`, `https://` or `ftp://` (hw2/hw2.py:76-83 is the same code), and these have at least 6 characters |
| UrlKeys.CheckUrlIsPrefixOnly | hw2/hw2.py:83 | whether a URL passes depends only on its scheme prefix; any text may follow it |
| UrlKeys.Lower | hw3/short_url_project/shortener/views.py:97 | lower-casing keeps the length and lowers each ASCII capital |
| UrlKeys.LoweredCheckIgnoresCase | hw2/hw2.py:116-119 | because the handler lower-cases first, it accepts a URL exactly when its first characters spell an allowed scheme in any letter case |
| UrlKeys.RandomUrl | hw3/short_url_project/shortener/views.py:63-79 | the key is one of the draws, 5 to 7 letters and digits long, not known to `find_url`, and the first such draw; there is no key exactly when every draw collides |
| ShortLinks.FindUrl | hw2/hw2.py:58-73 | the lookup finds nothing exactly when no row has the key, and otherwise returns the original URL of the first row with that key (hw3/short_url_project/shortener/views.py:35-50 is the same query on the ORM table) |
| ShortLinks.TakenIffStored | hw2/hw2.py:99-102 | in a table the handlers built, `find_url` is truthy exactly on the stored keys, so `random_url` avoids exactly those |
| ShortLinks.AppendValid | hw2/hw2.py:119-121 | appending a checked URL under a drawn key no row holds keeps keys unique and the table valid |
| ShortLinks.StoreFresh | hw2/hw2.py:119-121 | storing a checked URL under a key `find_url` does not know: no row holds that key, and the table stays valid |
| SqlShortener.UrlTable.constructor | hw2/hw2.py:39-44 | a freshly created table is empty and valid |
| SqlShortener.UrlTable.Handler | hw2/hw2.py:105-130 | GET renders the blank page and stores nothing; a POST whose lower-cased URL fails `check_url` stores nothing and shows the warning; otherwise exactly one row (lowered URL, fresh key) is appended, and the page shows `http://<host>/<key>` |
| SqlShortener.UrlTable.UrlHandler | hw2/hw2.py:133-143 | a stored key redirects to its original URL; any other key redirects to `/` |
| OrmShortener.Links | hw3/short_url_project/shortener/views.py:45-48 | the columns `find_url` reads: one link per record, in the same order |
| OrmShortener.Counted | hw3/short_url_project/shortener/views.py:126-128 | counting a redirect adds one to `redirect_count` of the records with that key and changes nothing else |
| OrmShortener.CountedKeepsLinks | hw3/short_url_project/shortener/views.py:125-129 | counting a redirect changes no URL and no key, so `find_url` answers the same for every key and the table stays valid |
| OrmShortener.LinksAppend | hw3/short_url_project/shortener/views.py:104-105 | saving a record adds its link after all the others |
| OrmShortener.SaveFresh | hw3/short_url_project/shortener/views.py:100-105 | saving a checked URL under a key `find_url` does not know: no record holds that key, and the table stays valid |
| OrmShortener.UrlStore.constructor | hw3/short_url_project/shortener/models.py:5-11 | an empty `UrlShortener` table is valid |
| OrmShortener.UrlStore.Handler | hw3/short_url_project/shortener/views.py:83-114 | as for hw2, and the saved record also holds the requesting user and a redirect count of 0 |
| OrmShortener.UrlStore.UrlHandler | hw3/short_url_project/shortener/views.py:117-131 | a stored key adds exactly one to its record's `redirect_count` and redirects to the URL that was stored under it; an unknown key redirects to `/` and changes nothing |
| BlogPost.Decimal | hw4/blog_project/blog/models.py:44 | `str(n)` is one or more decimal digits, with no leading zero, and is one digit exactly below 10 |
| BlogPost.DecimalRoundTrip | hw4/blog_project/blog/models.py:44 | reading back the digits of `str(n)` gives `n` |
| BlogPost.Extended | hw4/blog_project/blog/models.py:44 | every retry keeps the earlier slug as a prefix and adds at least two characters |
| BlogPost.Longest | hw4/blog_project/blog/models.py:43 | the taken slugs have bounded length, which is why the retry loop ends |
| BlogPost.PostTable.constructor | hw4/blog_project/blog/models.py:11-21 | the posts table starts empty, and its first primary key is 1 |
| BlogPost.PostTable.BaseSave | hw4/blog_project/blog/models.py:45 | Django's save is logged once; it refuses a slug another row holds (`unique=True`, models.py:17) and writes nothing then; otherwise it inserts a new post under the next primary key or rewrites an existing one |
| BlogPost.Post.constructor | hw4/blog_project/blog/models.py:15-17 | a new post has a title, no primary key and no slug |
| BlogPost.Post.PickSlug | hw4/blog_project/blog/models.py:41-44 | the chosen slug is `slugify(title)` followed by one `-n` per retry, n in 1..100; no post in the table has it; it is `slugify(title)` itself when that was free; the loop terminates |
| BlogPost.Post.Save | hw4/blog_project/blog/models.py:31-45 | exactly a post whose primary key is falsy (`not self.pk`: none, or 0) gets a slug; that slug is `slugify(title)` when free, and otherwise `slugify(title)` with one `-n` (n in 1..100) per retry; it is free in the table when the loop ends; the post is then written, a keyless one inserted under the next key and one with key 0 as row 0; a post with any other key keeps its slug; Django's save runs exactly once |

## Left out

- Websocket transport, JSON parsing and frame types are abstracted into `Inbound`. A frame is a kick command (`chat_name`, `user`, `kick_user`) or a partial command (`chat_name` only), each in a text or a binary frame, other text, or anything else. JSON values that are not strings are not modelled, and neither is the payload text of a binary command, which is never archived.
- The first frame's `user` and `chat_name` arrive as method arguments. A first frame without them, which raises at views.py:56-57, is not modelled.
- Logging, template rendering and the non-websocket GET of `index` (views.py:43-47) are not part of this model.
- Concurrency: aiohttp interleaves `index` calls at each `await`. Each modelled step is one atomic update of the registry, so interleavings inside one step are not captured.
- `ChatServer.Registry.Serve` and `ChatServer.Registry.Listen`: "never crashes" is proved for one session run alone. Other sessions acting between its turns can make it crash: after Alice kicks Bob and then leaves, the room is deleted (views.py:175), and Bob's next text frame raises a KeyError at views.py:142. Each single turn, `Receive`, does model that crash.
- `datetime.utcnow()` and `strftime` are replaced by the `stamp` argument.
- `ChatServer.Registry.ArchiveMessage`: only the default `max_length=100` is used by the handler, but the method takes any cap, and its proofs hold for every cap.
- `UrlKeys.Lower`: `str.lower` is modelled on ASCII letters only; the Unicode case mapping of other characters is not modelled.
- `UrlKeys.RandomUrl`: `random_url` calls itself once per collision (hw2/hw2.py:100, hw3/short_url_project/shortener/views.py:77), and CPython does not eliminate tail calls, so a run of about a thousand collisions exceeds the default recursion limit; the RecursionError is not caught by `handler`, and the request fails with a server error. The model takes a finite stream of draws and returns no key when all of them collide; the handlers then render `Unfinished`, which stands for that failed request. The recursion limit itself is not modelled.
- A POST without a `url` field raises in `request.POST.get('url').lower()`; it is not modelled.
- Records inserted outside the handlers are not modelled. This includes duplicate keys, for which `objects.get` would raise `MultipleObjectsReturned`; the `Valid` invariants of both tables exclude them.
- A NULL `redirect_count` (the column is nullable) is not modelled: the count is a natural number starting at 0.
- `create_user`, `logout_user`, `start` and the `login_required` redirect of hw3, and hw2's SQL text (`CREATE_TABLE`, `insert_records`), are not modelled; the user is the `user` argument.
- Which row an unordered `SELECT ... fetchone()` returns is taken to be the first in insertion order.
- `pytils.translit.slugify` is a function argument. The `max_length=70` of the slug column is not enforced.
- `BlogPost.Post.Save`: for a post whose primary key is truthy (neither none nor 0), the contract does not say whether Django's save succeeds; `BaseSave` states that.
- The rest of the repositories (URL configurations, settings, forms, blog views, templates, tests) are not part of this model.

=== FILE: blog_post.dfy ===
/**
 * Slug generation in the blog's `Post` model (hw4/blog_project/blog/models.py:31-45): a new post
 * gets `slugify(title)` as its slug, extended with `-<randint(1, 100)>` while the slug is already
 * taken, and is then saved by Django's `Model.save`.
 */
module BlogPost {
  import opened Wrappers

  /** `str(d)` for one digit. */
  function DigitChar(d: nat): (c: char)
    requires d < 10
    ensures '0' <= c <= '9'
  {
    ('0' as int + d) as char
  }

  /** `str(n)`: the decimal digits of `n`, without leading zeros. */
  function Decimal(n: nat): (s: string)
    ensures |s| >= 1 && forall i :: 0 <= i < |s| ==> '0' <= s[i] <= '9'
    ensures n < 10 <==> |s| == 1
    ensures 0 < n ==> s[0] != '0'
  {
    if n < 10 then [DigitChar(n)] else Decimal(n / 10) + [DigitChar(n % 10)]
  }

  /** `int(s)` for a non-empty string of decimal digits. */
  function DigitsValue(s: string): (n: nat)
    requires forall i :: 0 <= i < |s| ==> '0' <= s[i] <= '9'
  {
    if s == [] then 0 else DigitsValue(s[..|s| - 1]) * 10 + (s[|s| - 1] as int - '0' as int)
  }

  /** Reading back the digits `str(n)` writes gives `n`: no two draws produce the same suffix. */
  lemma {:induction false} DecimalRoundTrip(n: nat)
    ensures DigitsValue(Decimal(n)) == n
    decreases n
  {
    var s := Decimal(n);
    if n >= 10 {
      DecimalRoundTrip(n / 10);
      assert s[..|s| - 1] == Decimal(n / 10);
    }
  }

  /** The slug after the retries of the loop have drawn `draws`, in order: `f'{slug}-{n}'` per draw. */
  function Extended(base: string, draws: seq<nat>): (slug: string)
    ensures base <= slug
    ensures |slug| >= |base| + 2 * |draws|
  {
    if draws == [] then base
    else
      var shorter := Extended(base, draws[..|draws| - 1]);
      shorter + "-" + Decimal(draws[|draws| - 1])
  }

  /** An upper bound on the lengths of the slugs already taken. */
  ghost function Longest(slugs: set<string>): (bound: nat)
    ensures forall s :: s in slugs ==> |s| <= bound
    decreases slugs
  {
    if slugs == {} then 0
    else
      var s :| s in slugs;
      var rest := Longest(slugs - {s});
      if |s| > rest then |s| else rest
  }

  /** The `blog_post` table: the slug of each saved post by primary key. */
  class PostTable {
    var slugs: map<nat, string>
    /** The primary key the next insert is given. */
    var nextPk: nat
    /** Every call of `Model.save`: the post's primary key beforehand and its slug. */
    ghost var calls: seq<(Option<nat>, string)>

    /** Keys below `nextPk`, and the `unique=True` constraint on `slug` (models.py:17). */
    ghost predicate Valid()
      reads this
    {
      && (forall pk :: pk in slugs ==> pk < nextPk)
      && (forall p, q :: p in slugs && q in slugs && p != q ==> slugs[p] != slugs[q])
    }

    /** An empty table; like an SQLite `AutoField`, it hands out keys from 1. */
    constructor ()
      ensures Valid() && slugs == map[] && nextPk == 1 && calls == []
    {
      slugs, nextPk, calls := map[], 1, [];
    }

    /** `Post.objects.filter(slug=slug).exists()` (models.py:43). */
    predicate Exists(slug: string)
      reads this
    {
      slug in slugs.Values
    }

    /**
     * Django's `Model.save` for `post`: a post without a primary key is inserted under a new one;
     * one with a key has its row written. The unique constraint on `slug` refuses a slug another
     * row holds, and then nothing is written.
     */
    method BaseSave(post: Post) returns (saved: bool)
      requires Valid()
      modifies this, post
      ensures Valid()
      ensures calls == old(calls) + [(old(post.pk), post.slug)]
      ensures post.slug == old(post.slug) && post.title == old(post.title)
      ensures saved <==> forall p :: p in old(slugs) && old(post.pk) != Some(p) ==> old(slugs)[p] != post.slug
      ensures saved ==> post.pk.Some? && slugs == old(slugs)[post.pk.value := post.slug]
      ensures saved && old(post.pk).None? ==> post.pk == Some(old(nextPk)) && old(nextPk) !in old(slugs)
      ensures saved && old(post.pk).Some? ==> post.pk == old(post.pk)
      ensures !saved ==> slugs == old(slugs) && post.pk == old(post.pk)
    {
      calls := calls + [(post.pk, post.slug)];
      if exists p :: p in slugs && post.pk != Some(p) && slugs[p] == post.slug {
        return false;
      }
      if post.pk.None? {
        post.pk := Some(nextPk);
        nextPk := nextPk + 1;
      } else if post.pk.value >= nextPk {
        nextPk := post.pk.value + 1;
      }
      slugs := slugs[post.pk.value := post.slug];
      saved := true;
    }
  }

  /** `not self.pk` (models.py:40): no primary key yet, or the falsy key 0. */
  predicate Unsaved(pk: Option<nat>)
  {
    pk.None? || pk == Some(0)
  }

  class Post {
    /** `None` until the post has been inserted. */
    var pk: Option<nat>
    var title: string
    var slug: string

    constructor (title: string)
      ensures this.pk == None && this.title == title && this.slug == ""
    {
      this.pk, this.title, this.slug := None, title, "";
    }

    /**
     * `Post.save` (models.py:31-45). Only a post whose primary key is falsy (none, or 0) gets a slug: `slugify(title)`
     * (the transliterating `slugify` is the parameter), extended with `-<n>`, `n` drawn from 1..100,
     * while a post with that slug exists. `Model.save` is then called exactly once; for such a post
     * it always succeeds, inserting a post without a key and writing row 0 for key 0. `draws` are
     * the numbers `randint` returned.
     */
    method Save(table: PostTable, slugify: string -> string) returns (saved: bool, ghost draws: seq<nat>)
      requires table.Valid()
      modifies this, table
      ensures table.Valid()
      ensures table.calls == old(table.calls) + [(old(pk), slug)]
      ensures title == old(title)
      // a post with a truthy key keeps its slug
      ensures !Unsaved(old(pk)) ==> slug == old(slug) && draws == []
      // otherwise: slugify(title) plus one `-n` per retry, free in the table, and written
      ensures Unsaved(old(pk)) ==>
        && slug == Extended(slugify(title), draws)
        && (forall i :: 0 <= i < |draws| ==> 1 <= draws[i] <= 100)
        && slug !in old(table.slugs).Values
        && saved && pk == (if old(pk).None? then Some(old(table.nextPk)) else Some(0))
        && table.slugs == old(table.slugs)[pk.value := slug]
      // a title whose slug is free is used as it is
      ensures Unsaved(old(pk)) && !old(table.Exists(slugify(title))) ==> slug == slugify(title)
    {
      draws := [];
      if Unsaved(pk) {
        draws := PickSlug(table, slugify);
      }
      saved := table.BaseSave(this);
    }

    /**
     * The slug of a new post (models.py:41-44): `slugify(title)`, then `-<n>` appended while a post
     * with the slug exists. The loop ends because every round lengthens the slug by at least two
     * characters, and only finitely many slugs are taken.
     */
    method PickSlug(table: PostTable, slugify: string -> string) returns (ghost draws: seq<nat>)
      modifies this`slug
      ensures slug == Extended(slugify(title), draws)
      ensures forall i :: 0 <= i < |draws| ==> 1 <= draws[i] <= 100
      ensures !table.Exists(slug)
      ensures !table.Exists(slugify(title)) ==> draws == []
    {
      draws := [];
      slug := slugify(title);
      ghost var bound := Longest(table.slugs.Values);
      while table.Exists(slug)
        invariant slug == Extended(slugify(title), draws)
        invariant forall i :: 0 <= i < |draws| ==> 1 <= draws[i] <= 100
        invariant draws != [] ==> table.Exists(slugify(title))
        decreases bound - |slug|
      {
        var n :| 1 <= n <= 100;
        slug := slug + "-" + Decimal(n);
        ghost var before := draws;
        draws := draws + [n];
        assert draws[..|draws| - 1] == before;
      }
    }
  }
}

=== FILE: chat_archive.dfy ===
/**
 * The per-room message archive of the chat (Chat_project/chat_demo/views.py:18-39): a list of
 * formatted lines, newest last, capped at `max_length` entries by dropping the oldest.
 */
module ChatArchive {

  /**
   * One archived line, `(<time> UTC) <name>: <message>` (views.py:33-35). `stamp` is what
   * `strftime('%Z %H:%M:%S')` returns for the clock reading, taken as given; on the naive time
   * `utcnow()` returns, `%Z` is empty and the stamp starts with a space.
   */
  function Entry(stamp: string, name: string, message: string): (e: string)
    ensures |e| >= |message| && e[|e| - |message|..] == message
    ensures |e| > |stamp| && e[..|stamp| + 1] == "(" + stamp
  {
    "(" + stamp + " UTC) " + name + ": " + message
  }

  /**
   * The room's list after `archive_message` (views.py:34-38): the entry is appended, and index 0 is
   * deleted when the list is then longer than `maxLength`.
   */
  function Archived(log: seq<string>, entry: string, maxLength: nat): (r: seq<string>)
    // exactly one old line is dropped, and only on overflow
    ensures |r| == if |log| + 1 > maxLength then |log| else |log| + 1
    // what is kept is the newest part of log + [entry], in order
    ensures r == (log + [entry])[|log| + 1 - |r|..]
    ensures |log| <= maxLength ==> |r| <= maxLength
    ensures maxLength > 0 ==> |r| > 0 && r[|r| - 1] == entry
  {
    var appended := log + [entry];
    if |appended| > maxLength then appended[1..] else appended
  }

  /** The newest `k` elements of `s`, in order (all of `s` when it is shorter). */
  function Newest(s: seq<string>, k: nat): (r: seq<string>)
    ensures |r| == if |s| <= k then |s| else k
  {
    if |s| <= k then s else s[|s| - k..]
  }

  /** The archive after `archive_message` has been applied to each of `messages` in turn. */
  function ArchivedAll(log: seq<string>, messages: seq<string>, maxLength: nat): (r: seq<string>)
    decreases |messages|
  {
    if messages == [] then log
    else ArchivedAll(Archived(log, messages[0], maxLength), messages[1..], maxLength)
  }

  /**
   * However many lines are archived, a capped archive holds exactly the newest `maxLength` of all
   * the lines it was ever given, oldest first: after 101 messages into a limit of 100, the first
   * one is gone and the other 100 remain in order.
   */
  lemma {:induction false} ArchivedAllKeepsNewest(log: seq<string>, messages: seq<string>, maxLength: nat)
    requires |log| <= maxLength
    ensures ArchivedAll(log, messages, maxLength) == Newest(log + messages, maxLength)
    decreases |messages|
  {
    if messages == [] {
      assert log + messages == log;
    } else {
      var next := Archived(log, messages[0], maxLength);
      ArchivedAllKeepsNewest(next, messages[1..], maxLength);
      NewestOfSuffix(log + [messages[0]], next, messages[1..], maxLength);
      assert log + [messages[0]] + messages[1..] == log + messages;
    }
  }

  /** Dropping old elements that `Newest` would drop anyway does not change its result. */
  lemma NewestOfSuffix(x: seq<string>, t: seq<string>, y: seq<string>, k: nat)
    requires |t| <= |x| && t == x[|x| - |t|..]
    requires |t| >= if |x| <= k then |x| else k
    ensures Newest(t + y, k) == Newest(x + y, k)
  {
    var a, b := t + y, x + y;
    assert a == b[|x| - |t|..];
  }

  /** `'<br>'.join(log)` (views.py:111): the lines oldest first, separated by `<br>`. */
  function Render(log: seq<string>): (r: string)
  {
    if log == [] then ""
    else if |log| == 1 then log[0]
    else log[0] + "<br>" + Render(log[1..])
  }

  /** Archiving one more line extends the replayed history by a separator and that line. */
  lemma {:induction false} RenderAppend(log: seq<string>, entry: string)
    ensures Render(log + [entry]) == if log == [] then entry else Render(log) + "<br>" + entry
  {
    if |log| > 1 {
      RenderAppend(log[1..], entry);
      assert (log + [entry])[1..] == log[1..] + [entry];
    } else if |log| == 1 {
      assert (log + [entry])[1..] == [entry];
    }
  }
}

=== FILE: chat_room.dfy ===
/**
 * The member dict of one chat room: `request.app['websockets'][chat]`, a Python dict from member
 * name to websocket (Chat_project/chat_demo/views.py). A Python dict remembers insertion order, and
 * `users_lst` returns its keys in that order, so the dict is modelled as the ordered list of names
 * together with the name -> connection map.
 */
module ChatRoom {
  import opened Wrappers

  /** An opaque websocket identity; two connections are the same only if they are one object. */
  datatype Conn = Conn(id: nat)

  /** The dict: keys in insertion order, and the value stored under each key. */
  datatype Members = Members(names: seq<string>, conns: map<string, Conn>)

  /** No name is listed twice. */
  predicate Distinct(s: seq<string>)
  {
    forall i, j :: 0 <= i < j < |s| ==> s[i] != s[j]
  }

  /** A well-formed dict: its key list has no repeats and holds exactly the mapped names. */
  ghost predicate Valid(m: Members)
  {
    Distinct(m.names) && (forall n :: n in m.conns <==> n in m.names)
  }

  /** `{name: ws}`: the dict a new room starts with (views.py:102). */
  function Single(name: string, ws: Conn): (m: Members)
    ensures Valid(m) && m.names == [name] && m.conns == map[name := ws]
  {
    Members([name], map[name := ws])
  }

  /** `len(chat_dict)`: the number of keys. */
  function Count(m: Members): nat
  {
    |m.names|
  }

  /** `ws in chat_dict.values()` (views.py:142): some member is connected through `ws`. */
  predicate HasConn(m: Members, ws: Conn)
  {
    ws in m.conns.Values
  }

  /** `chat_dict[name] = ws` for a name that is not yet a key (views.py:98): the name goes last. */
  function Insert(m: Members, name: string, ws: Conn): (r: Members)
    requires Valid(m) && name !in m.conns
    ensures Valid(r)
    ensures r.conns == m.conns[name := ws] && r.names == m.names + [name]
    ensures Count(r) == Count(m) + 1
  {
    Members(m.names + [name], m.conns[name := ws])
  }

  /** The key list with `name` taken out and the order of the others kept. */
  function Without(s: seq<string>, name: string): (r: seq<string>)
    ensures forall x :: x in r <==> x in s && x != name
    ensures Distinct(s) ==> Distinct(r)
    ensures Distinct(s) && name in s ==> |r| == |s| - 1
    ensures name !in s ==> r == s
  {
    if s == [] then []
    else if s[0] == name then Without(s[1..], name)
    else
      var rest := Without(s[1..], name);
      assert Distinct(s) ==> s[0] !in s[1..] && Distinct(s[1..]);
      [s[0]] + rest
  }

  /** Taking out the name at index `k` of a key list without repeats leaves the names before and after it, in order. */
  lemma {:induction false} WithoutAt(s: seq<string>, name: string, k: nat)
    requires Distinct(s) && k < |s| && s[k] == name
    ensures Without(s, name) == s[..k] + s[k + 1..]
  {
    assert s[0] == name ==> s[0] !in s[1..];
    if k > 0 {
      assert Distinct(s[1..]);
      WithoutAt(s[1..], name, k - 1);
      assert s[..k] == [s[0]] + s[1..][..k - 1];
      assert s[k + 1..] == s[1..][k..];
    }
  }

  /** `del chat_dict[name]` (views.py:137, 167), for a name that is a key. */
  function Remove(m: Members, name: string): (r: Members)
    requires Valid(m) && name in m.conns
    ensures Valid(r)
    ensures r.conns == m.conns - {name}
    ensures r.names == Without(m.names, name)
    ensures Count(r) == Count(m) - 1
  {
    Members(Without(m.names, name), m.conns - {name})
  }

  /**
   * The connections of the members in dict order (`for ws in chat_dict.values()`), leaving out the
   * connection `skip` when one is given (`if ws is not ws_current`, views.py:156-157).
   */
  function Targets(names: seq<string>, conns: map<string, Conn>, skip: Option<Conn>): (r: seq<Conn>)
    requires forall n :: n in names ==> n in conns
    ensures forall c :: c in r <==> (exists n :: n in names && conns[n] == c) && skip != Some(c)
    ensures skip.None? ==> |r| == |names|
  {
    if names == [] then []
    else
      var rest := Targets(names[1..], conns, skip);
      assert forall n :: n in names[1..] ==> n in names;
      assert forall n :: n in names ==> n == names[0] || n in names[1..];
      if skip == Some(conns[names[0]]) then rest else [conns[names[0]]] + rest
  }

  /** With nothing skipped, the i-th websocket written to is that of the i-th name in dict order. */
  lemma {:induction false} TargetsInOrder(names: seq<string>, conns: map<string, Conn>)
    requires forall n :: n in names ==> n in conns
    ensures forall i :: 0 <= i < |names| ==> Targets(names, conns, None)[i] == conns[names[i]]
  {
    if names != [] {
      assert forall n :: n in names[1..] ==> n in names;
      TargetsInOrder(names[1..], conns);
      assert forall i :: 1 <= i < |names| ==> names[i] == names[1..][i - 1];
    }
  }

  /** With no member behind `skip`, leaving it out changes nothing. */
  lemma {:induction false} TargetsMissSkip(names: seq<string>, conns: map<string, Conn>, c: Conn)
    requires forall n :: n in names ==> n in conns && conns[n] != c
    ensures Targets(names, conns, Some(c)) == Targets(names, conns, None)
  {
    if names != [] {
      assert forall n :: n in names[1..] ==> n in names;
      TargetsMissSkip(names[1..], conns, c);
    }
  }

  /** Skipping the websocket only `name` uses is the same as leaving `name` out of the key list. */
  lemma {:induction false} SkipIsWithout(names: seq<string>, conns: map<string, Conn>, name: string)
    requires Distinct(names) && name in names
    requires forall n :: n in names ==> n in conns
    requires forall n :: n in names && n != name ==> conns[n] != conns[name]
    ensures Targets(names, conns, Some(conns[name])) == Targets(Without(names, name), conns, None)
  {
    assert forall n :: n in names[1..] ==> n in names;
    assert Distinct(names[1..]);
    if names[0] == name {
      assert name !in names[1..];
      TargetsMissSkip(names[1..], conns, conns[name]);
    } else {
      SkipIsWithout(names[1..], conns, name);
      assert Without(names, name)[1..] == Without(names[1..], name);
    }
  }

  /**
   * The fan-out of a member's text (views.py:156-157): when `name` is the only member connected
   * through its websocket, every other member is written to exactly once, in dict order.
   */
  lemma {:induction false} TargetsSkipOne(names: seq<string>, conns: map<string, Conn>, name: string)
    requires Distinct(names) && name in names
    requires forall n :: n in names ==> n in conns
    requires forall n :: n in names && n != name ==> conns[n] != conns[name]
    ensures var r := Targets(names, conns, Some(conns[name]));
      && |r| == |names| - 1
      && forall i :: 0 <= i < |r| ==> r[i] == conns[Without(names, name)[i]]
  {
    SkipIsWithout(names, conns, name);
    TargetsInOrder(Without(names, name), conns);
  }

  /** A dict whose key list has no repeats has as many keys as its map. */
  lemma {:induction false} CountIsKeys(m: Members)
    requires Valid(m)
    ensures Count(m) == |m.conns|
  {
    DistinctCard(m.names);
    assert m.conns.Keys == set n | n in m.names;
  }

  lemma {:induction false} DistinctCard(s: seq<string>)
    requires Distinct(s)
    ensures |set n | n in s| == |s|
  {
    if s != [] {
      DistinctCard(s[1..]);
      assert (set n | n in s) == {s[0]} + (set n | n in s[1..]);
      assert s[0] !in s[1..];
    }
  }
}

=== FILE: chat_scenario.dfy ===
/**
 * Walks through one room, using only the contracts of the registry's operations. Alice creates
 * "abc" and Bob joins. Then Alice writes, Alice kicks Bob, Bob forges a kick, or both leave,
 * one per method.
 */
module ChatScenario {
  import opened Wrappers
  import opened ChatRoom
  import opened ChatArchive
  import opened ChatServer

  /** Alice's text reaches Bob alone. */
  lemma PairTargets(a: Conn, b: Conn)
    requires a != b
    ensures Targets(["Alice", "Bob"], map["Alice" := a, "Bob" := b], Some(a)) == [b]
  {
    var conns := map["Alice" := a, "Bob" := b];
    assert ["Alice", "Bob"][1..] == ["Bob"] && ["Bob"][1..] == [];
    assert Targets(["Bob"], conns, Some(a)) == [b];
  }

  /** A broadcast to a room of one member is one delivery to that member. */
  lemma SoleBroadcast(a: Conn, ev: Event)
    ensures Broadcast(Members(["Alice"], map["Alice" := a]), ev) == [Delivery(a, ev)]
  {
    assert ["Alice"][1..] == [];
  }

  /** Alice creates "abc": she is its only member and its admin, and its archive is empty. */
  method OneMember() returns (registry: Registry, alice: Session)
    ensures fresh(registry) && registry.Valid()
    ensures alice == Session("Alice", "abc", Conn(1))
    ensures registry.rooms.Keys == {"abc"} && registry.rooms["abc"] == Single("Alice", Conn(1))
    ensures registry.admins == map["abc" := "Alice"] && registry.archives == map["abc" := []]
  {
    registry := new Registry();
    var sa, out := registry.Join("Alice", "abc", Conn(1));
    alice := sa.value;
  }

  /** Bob joins after Alice; she stays admin. */
  method TwoMembers() returns (registry: Registry, alice: Session, bob: Session)
    ensures fresh(registry) && registry.Valid()
    ensures alice == Session("Alice", "abc", Conn(1)) && bob == Session("Bob", "abc", Conn(2))
    ensures registry.rooms.Keys == {"abc"}
    ensures registry.rooms["abc"] == Members(["Alice", "Bob"], map["Alice" := Conn(1), "Bob" := Conn(2)])
    ensures registry.admins == map["abc" := "Alice"] && registry.archives == map["abc" := []]
  {
    registry, alice := OneMember();
    var first := registry.rooms["abc"];
    assert registry.Populated("abc") && "Bob" !in first.conns;
    var sb, out := registry.Join("Bob", "abc", Conn(2));
    assert registry.rooms["abc"] == Insert(first, "Bob", Conn(2));
    bob := sb.value;
  }

  /** A room name of two characters is refused, and so is a second "Bob". */
  method Refusals()
  {
    var registry, alice, bob := TwoMembers();
    var rooms := registry.rooms;
    var short, outShort := registry.Join("Carol", "ab", Conn(3));
    assert short == None;
    assert outShort == [Delivery(Conn(3), Interrupt("Carol", "ab", LengthMessage("ab")))];
    assert registry.rooms == rooms;
    assert registry.Populated("abc") && Count(registry.rooms["abc"]) < MAX_USER;
    assert "Bob" in registry.rooms["abc"].conns;
    var twice, outTwice := registry.Join("Bob", "abc", Conn(3));
    assert twice == None;
    assert outTwice == [Delivery(Conn(3), Interrupt("Bob", "abc", TakenMessage("Bob")))];
    assert registry.rooms["abc"].conns["Bob"] == Conn(2);
  }

  /** Alice's text is archived and goes to Bob only. */
  method Message()
  {
    var registry, alice, bob := TwoMembers();
    var room := registry.rooms["abc"];
    assert room.conns["Alice"] == alice.ws;
    var step, out := registry.Receive(alice, Text("hi"), "12:00:00");
    PairTargets(alice.ws, bob.ws);
    assert out == [Delivery(bob.ws, Sent("Alice", "hi"))];
    assert registry.archives["abc"] == [Entry("12:00:00", "Alice", "hi")];
  }

  /** Alice, the admin, kicks Bob: he leaves the member dict, his session does not know yet. */
  method AliceKicksBob() returns (registry: Registry, alice: Session, bob: Session)
    ensures fresh(registry) && registry.Valid()
    ensures alice == Session("Alice", "abc", Conn(1)) && bob == Session("Bob", "abc", Conn(2))
    ensures registry.rooms.Keys == {"abc"} && registry.rooms["abc"] == Members(["Alice"], map["Alice" := Conn(1)])
    ensures registry.admins == map["abc" := "Alice"]
  {
    registry, alice, bob := TwoMembers();
    var room := registry.rooms["abc"];
    assert registry.Kicks(KickCmd("{}", "abc", "Alice", "Bob", false));
    var step, out := registry.Receive(alice, KickCmd("{}", "abc", "Alice", "Bob", false), "12:00:01");
    assert registry.rooms["abc"] == Remove(room, "Bob");
    assert Without(["Alice", "Bob"], "Bob") == ["Alice"];
  }

  /** Bob's next frame after the kick: he is told who kicked him, and Alice that he left. */
  method Kicked()
  {
    var registry, alice, bob := AliceKicksBob();
    var left := registry.rooms["abc"];
    assert !HasConn(left, bob.ws) by {
      assert forall c :: c in left.conns.Values ==> c == alice.ws;
    }
    var unit := Text("still here?");
    assert !registry.Kicks(unit) && !registry.Ignored(unit) && unit.Target(bob.chat) == "abc";
    var step, out := registry.Receive(bob, unit, "12:00:02");
    assert step == Continue(bob);
    SoleBroadcast(alice.ws, Disconnect("Bob", ["Alice"]));
    var farewell := Broadcast(left, Disconnect("Bob", left.names));
    assert farewell == [Delivery(alice.ws, Disconnect("Bob", ["Alice"]))];
    assert out == [Delivery(bob.ws, Interrupt("Bob", "abc", KickMessage("Alice")))] + farewell;
  }

  /** Bob puts Alice's name in the payload's `user`: the kick goes through, as views.py:133-137 trusts it. */
  method ForgedKick()
  {
    var registry, alice, bob := TwoMembers();
    var room := registry.rooms["abc"];
    assert registry.Kicks(KickCmd("{}", "abc", "Alice", "Alice", false));
    var step, out := registry.Receive(bob, KickCmd("{}", "abc", "Alice", "Alice", false), "12:00:01");
    assert registry.rooms["abc"] == Remove(room, "Alice");
    assert Without(["Alice", "Bob"], "Alice") == ["Bob"];
    assert registry.rooms["abc"] == Members(["Bob"], map["Bob" := Conn(2)]);
  }

  /** Both leave: the room and its admin go, the archive stays, and a rejoin starts afresh. */
  method Leaves()
  {
    var registry, alice, bob := TwoMembers();
    var room := registry.rooms["abc"];
    var c1, out1 := registry.Leave(bob);
    assert registry.rooms["abc"] == Remove(room, "Bob");
    assert Without(["Alice", "Bob"], "Bob") == ["Alice"];
    assert registry.rooms["abc"].names == ["Alice"];
    var c2, out2 := registry.Leave(alice);
    assert !c2 && "abc" !in registry.rooms && "abc" !in registry.admins;
    assert "abc" in registry.archives;

    var again, outAgain := registry.Join("Bob", "abc", Conn(4));
    assert registry.admins["abc"] == "Bob" && registry.archives["abc"] == [];
  }
}

=== FILE: chat_server.dfy ===
/**
 * The websocket chat session manager of Chat_project/chat_demo/views.py: the shared registry of
 * rooms (`request.app['websockets']`), admins (`admin_dict`) and archives (`archive_dict`), and the
 * steps one connection's `index` handler takes on it: the join, each turn of the receive loop
 * (kick command, chat text, disconnect) and the teardown after the loop.
 *
 * Every step is one atomic update of the registry. Messages the server sends are returned as a
 * list of deliveries instead of being written to sockets.
 */
module ChatServer {
  import opened Wrappers
  import opened ChatRoom
  import opened ChatArchive

  /** `MAX_USER` (views.py:7): a join is refused once a room has this many members. */
  const MAX_USER: nat := 100
  /** The default `max_length` of `archive_message` (views.py:19), the only value the handler uses. */
  const ARCHIVE_LENGTH: nat := 100

  /** The JSON objects the server sends; `action` is the constructor. */
  datatype Event =
    | Connect(name: string, chat: string, admin: string, archive: string)
    | Joined(name: string, chatUsers: seq<string>)  // action `join`
    | Sent(name: string, text: string)
    | Disconnect(name: string, chatUsers: seq<string>)
    | Interrupt(name: string, chat: string, message: string)

  /** One `send_json` call: the event and the websocket it is written to. */
  datatype Delivery = Delivery(to: Conn, event: Event)

  /**
   * One unit from `ws_current.receive()` (views.py:129), as the loop body reads it. `msg.json()`
   * (views.py:133-135) decodes the payload of a text frame and of a binary frame alike, so a command
   * may come in either; `binary` records which, for the frame-type test at line 154.
   * - KickCmd: a frame whose JSON has `chat_name`, `user` and `kick_user`;
   * - PartialCmd: a frame whose JSON has `chat_name` but lacks `user` or `kick_user`;
   * - Text: any other text frame;
   * - Other: a close or error frame, or a binary frame that is not such a command.
   */
  datatype Inbound =
    | Text(data: string)
    | PartialCmd(data: string, chatName: string, binary: bool)
    | KickCmd(data: string, chatName: string, user: string, kickUser: string, binary: bool)
    | Other
  {
    /** The value of the handler's `chat` variable after the parse: line 133 rebinds it. */
    function Target(current: string): string
    {
      if PartialCmd? || KickCmd? then chatName else current
    }

    /** `msg.type == aiohttp.WSMsgType.text` (views.py:154). */
    predicate IsText()
    {
      Text? || ((PartialCmd? || KickCmd?) && !binary)
    }
  }

  /** The local state of one `index` call once it has joined: the member name, the `chat` variable and its own websocket. */
  datatype Session = Session(name: string, chat: string, ws: Conn)

  /** How one turn of the receive loop ends: go round again, `break` (line 161), or an uncaught exception. */
  datatype Step = Continue(session: Session) | Break(session: Session) | Crash

  /** How a whole `index` call has ended so far. */
  datatype Status = Rejected | Open(session: Session) | Closed | Crashed

  function LengthMessage(chat: string): string
  {
    "The length of the chat name (" + chat + ") must be between 3 and 8 characters."
  }

  function FullMessage(chat: string): string
  {
    "The number of chat users (" + chat + ") has exceeded 100."
  }

  function TakenMessage(name: string): string
  {
    name + " already exists!"
  }

  function KickMessage(admin: string): string
  {
    "Admin (" + admin + ") kick you!"
  }

  /** `ev` sent to each connection of `targets`, in order. */
  function Notify(targets: seq<Conn>, ev: Event): (r: seq<Delivery>)
    ensures |r| == |targets| && forall i :: 0 <= i < |r| ==> r[i].to == targets[i] && r[i].event == ev
  {
    if targets == [] then [] else [Delivery(targets[0], ev)] + Notify(targets[1..], ev)
  }

  /** `ev` sent to every member of the room (views.py:122-124, 148-151, 171-173). */
  function Broadcast(m: Members, ev: Event): seq<Delivery>
    requires ChatRoom.Valid(m)
  {
    Notify(Targets(m.names, m.conns, None), ev)
  }

  /** `ev` sent to every member of the room except the one connected through `ws` (views.py:156-159). */
  function BroadcastExcept(m: Members, ws: Conn, ev: Event): seq<Delivery>
    requires ChatRoom.Valid(m)
  {
    Notify(Targets(m.names, m.conns, Some(ws)), ev)
  }

  /**
   * The `sent` fan-out (views.py:155-159) of a member who alone uses websocket `ws`: every other
   * member gets the event exactly once, in dict order, as if the sender had left the room.
   */
  lemma {:induction false} ExceptSender(m: Members, name: string, ws: Conn, ev: Event)
    requires ChatRoom.Valid(m) && name in m.conns && m.conns[name] == ws
    requires forall n :: n in m.conns && m.conns[n] == ws ==> n == name
    ensures BroadcastExcept(m, ws, ev) == Broadcast(Remove(m, name), ev)
  {
    SkipIsWithout(m.names, m.conns, name);
    var r := Remove(m, name);
    TargetsInOrder(r.names, m.conns);
    TargetsInOrder(r.names, r.conns);
    assert Targets(r.names, m.conns, None) == Targets(r.names, r.conns, None);
  }

  /** No member of any room is connected through `ws`: a websocket that has just been opened. */
  predicate Unused(rooms: map<string, Members>, ws: Conn)
  {
    forall c, n :: c in rooms && n in rooms[c].conns ==> rooms[c].conns[n] != ws
  }

  /** Every entry whose connection is `ws` is keyed by `name`. */
  ghost predicate OwnedBy(rooms: map<string, Members>, ws: Conn, name: string)
  {
    forall c, n :: c in rooms && n in rooms[c].conns && rooms[c].conns[n] == ws ==> n == name
  }

  /** Registering a fresh websocket under one name, and otherwise only keeping entries, leaves it owned by that name. */
  lemma FreshOwned(before: map<string, Members>, chat: string, m: Members, name: string, ws: Conn)
    requires Unused(before, ws)
    requires forall n :: n in m.conns && n != name ==> chat in before && n in before[chat].conns && m.conns[n] == before[chat].conns[n]
    ensures OwnedBy(before[chat := m], ws, name)
  {
  }

  class Registry {
    /** `request.app['websockets']`: room name -> member dict. */
    var rooms: map<string, Members>
    /** `admin_dict`: room name -> the name of its first member. */
    var admins: map<string, string>
    /** `archive_dict`: room name -> archived lines, oldest first. */
    var archives: map<string, seq<string>>

    /**
     * What every step keeps: each member dict is well formed and holds at most MAX_USER names;
     * rooms and admin entries come and go together; every room has an archive, and an archive
     * outlives its room; archives exist only for names of length 3 to 8 and stay within their cap.
     */
    ghost predicate Valid()
      reads this
    {
      && (forall c :: c in rooms ==> ChatRoom.Valid(rooms[c]) && Count(rooms[c]) <= MAX_USER)
      && admins.Keys == rooms.Keys
      && rooms.Keys <= archives.Keys
      && (forall c :: c in archives ==> 3 <= |c| <= 8 && |archives[c]| <= ARCHIVE_LENGTH)
    }

    /** `app['websockets'] = {}` (__main__.py:17) with the empty module-level dicts (views.py:8-9). */
    constructor ()
      ensures Valid()
      ensures rooms == map[] && admins == map[] && archives == map[]
    {
      rooms, admins, archives := map[], map[], map[];
    }

    /** `if chat_dict:` (views.py:71-72): the room is registered and its dict is non-empty. */
    predicate Populated(chat: string)
      reads this
    {
      chat in rooms && Count(rooms[chat]) > 0
    }

    /** No registered member other than `s.name` uses the session's websocket. */
    ghost predicate Owns(s: Session)
      reads this
    {
      OwnedBy(rooms, s.ws, s.name)
    }

    /** `users_lst` (views.py:13-15): the members' names in the order they joined. */
    function UsersList(chat: string): (users: seq<string>)
      reads this
      requires Valid() && chat in rooms
      ensures Distinct(users)
      ensures forall n :: n in users <==> n in rooms[chat].conns
      ensures |users| == |rooms[chat].conns| <= MAX_USER
    {
      CountIsKeys(rooms[chat]);
      rooms[chat].names
    }

    /**
     * The join handshake (views.py:55-124): validate the room name, then add the member to an
     * existing room or create the room with the joiner as admin and an empty archive; on success
     * send `connect` to the joiner and `join` to every member, the joiner included.
     */
    method Join(name: string, chat: string, ws: Conn) returns (session: Option<Session>, out: seq<Delivery>)
      requires Valid()
      modifies this
      ensures Valid()
      // a room name of the wrong length is refused and nothing changes
      ensures !(3 <= |chat| <= 8) ==>
        && session == None && unchanged(this)
        && out == [Delivery(ws, Interrupt(name, chat, LengthMessage(chat)))]
      // a full room is refused and left as it was
      ensures 3 <= |chat| <= 8 && old(Populated(chat)) && old(Count(rooms[chat])) >= MAX_USER ==>
        && session == None && unchanged(this)
        && out == [Delivery(ws, Interrupt(name, chat, FullMessage(chat)))]
      // a name already in the room is refused and the existing member is untouched
      ensures 3 <= |chat| <= 8 && old(Populated(chat)) && old(Count(rooms[chat])) < MAX_USER
              && name in old(rooms[chat].conns) ==>
        && session == None && unchanged(this)
        && out == [Delivery(ws, Interrupt(name, chat, TakenMessage(name)))]
      // otherwise exactly name -> ws is added; admin and archive stay
      ensures 3 <= |chat| <= 8 && old(Populated(chat)) && old(Count(rooms[chat])) < MAX_USER
              && name !in old(rooms[chat].conns) ==>
        && session.Some?
        && rooms == old(rooms)[chat := Insert(old(rooms[chat]), name, ws)]
        && admins == old(admins) && archives == old(archives)
      // a missing or emptied room is (re)created: one member, who is admin, and an empty archive
      ensures 3 <= |chat| <= 8 && !old(Populated(chat)) ==>
        && session.Some?
        && rooms == old(rooms)[chat := Single(name, ws)]
        && admins == old(admins)[chat := name]
        && archives == old(archives)[chat := []]
      ensures session.Some? ==>
        && session.value == Session(name, chat, ws)
        && chat in rooms && rooms[chat].conns[name] == ws
        && out == [Delivery(ws, Connect(name, chat, admins[chat], Render(archives[chat])))]
                  + Broadcast(rooms[chat], Joined(name, UsersList(chat)))
      // a fresh websocket belongs to the new member alone
      ensures session.Some? && Unused(old(rooms), ws) ==> Owns(session.value)
    {
      if !(3 <= |chat| <= 8) {
        return None, [Delivery(ws, Interrupt(name, chat, LengthMessage(chat)))];
      }
      if Populated(chat) {
        if Count(rooms[chat]) > MAX_USER - 1 {
          return None, [Delivery(ws, Interrupt(name, chat, FullMessage(chat)))];
        } else if name in rooms[chat].conns {
          return None, [Delivery(ws, Interrupt(name, chat, TakenMessage(name)))];
        }
      }
      Admit(name, chat, ws);
      session := Some(Session(name, chat, ws));
      out := [Delivery(ws, Connect(name, chat, admins[chat], Render(archives[chat])))]
             + Broadcast(rooms[chat], Joined(name, UsersList(chat)));
    }

    /**
     * The registry update of an accepted join (views.py:93-106): into a populated room the member
     * is added; a missing or emptied room is replaced by one holding just this member, who becomes
     * admin, with its archive reset to empty.
     */
    method Admit(name: string, chat: string, ws: Conn)
      requires Valid() && 3 <= |chat| <= 8
      requires Populated(chat) ==> Count(rooms[chat]) < MAX_USER && name !in rooms[chat].conns
      modifies this
      ensures Valid()
      ensures old(Populated(chat)) ==>
        && rooms == old(rooms)[chat := Insert(old(rooms[chat]), name, ws)]
        && admins == old(admins) && archives == old(archives)
      ensures !old(Populated(chat)) ==>
        && rooms == old(rooms)[chat := Single(name, ws)]
        && admins == old(admins)[chat := name]
        && archives == old(archives)[chat := []]
      ensures Unused(old(rooms), ws) ==> OwnedBy(rooms, ws, name)
    {
      if Populated(chat) {
        rooms := rooms[chat := Insert(rooms[chat], name, ws)];
      } else {
        rooms := rooms[chat := Single(name, ws)];
        admins := admins[chat := name];
        archives := archives[chat := []];
      }
      if Unused(old(rooms), ws) {
        FreshOwned(old(rooms), chat, rooms[chat], name, ws);
      }
    }

    /**
     * `archive_message(archive_dict, chat, name, message)` (views.py:33-38): the room's list gets
     * the formatted line appended and loses its oldest line if it then exceeds `maxLength`.
     */
    method ArchiveMessage(chat: string, name: string, message: string, stamp: string, maxLength: nat)
      requires chat in archives
      modifies this
      ensures archives == old(archives)[chat := Archived(old(archives[chat]), Entry(stamp, name, message), maxLength)]
      ensures rooms == old(rooms) && admins == old(admins)
      ensures old(Valid()) && maxLength <= ARCHIVE_LENGTH ==> Valid()
    {
      var messageList := archives[chat];
      messageList := messageList + [Entry(stamp, name, message)];
      if |messageList| > maxLength {
        messageList := messageList[1..];
      }
      archives := archives[chat := messageList];
    }

    /** The kick command takes effect: the payload names a room whose admin is the payload's `user`, and `kick_user` is a member. */
    predicate Kicks(unit: Inbound)
      reads this
      requires Valid()
    {
      && unit.KickCmd? && unit.chatName in admins && unit.user == admins[unit.chatName]
      && unit.kickUser in rooms[unit.chatName].conns
    }

    /** The kick command is ignored without an exception: the payload's `user` is not the room's admin. */
    predicate Ignored(unit: Inbound)
      reads this
    {
      unit.KickCmd? && unit.chatName in admins && unit.user != admins[unit.chatName]
    }

    /**
     * One turn of the receive loop (views.py:129-161). A kick command whose `user` matches the
     * payload room's admin deletes `kick_user` there; any other kick command from a non-admin is
     * ignored. Everything else lands in the bare `except`, modelled by `Relay`. `stamp` is the
     * clock reading for the archive line.
     */
    method Receive(s: Session, unit: Inbound, stamp: string) returns (next: Step, out: seq<Delivery>)
      requires Valid()
      modifies this
      ensures Valid()
      ensures old(Kicks(unit)) ==>
        && rooms == old(rooms)[unit.chatName := Remove(old(rooms[unit.chatName]), unit.kickUser)]
        && admins == old(admins) && archives == old(archives)
        && out == [] && next == Continue(s.(chat := unit.chatName))
      ensures old(Ignored(unit)) ==>
        unchanged(this) && out == [] && next == Continue(s.(chat := unit.chatName))
      ensures !old(Kicks(unit)) && !old(Ignored(unit)) ==>
        var t := unit.Target(s.chat);
        // the room the `chat` variable now names is gone: KeyError at line 142, uncaught
        && (t !in old(rooms) ==> next == Crash && unchanged(this) && out == [])
        // kicked earlier: tell this session who kicked it, tell the room it left, keep looping
        && (t in old(rooms) && !HasConn(old(rooms[t]), s.ws) ==>
              && unchanged(this) && next == Continue(s.(chat := t))
              && out == [Delivery(s.ws, Interrupt(s.name, t, KickMessage(old(admins[t]))))]
                        + Broadcast(old(rooms[t]), Disconnect(s.name, old(rooms[t].names))))
        // a member's text: archived, and sent to everyone else in the room
        && (t in old(rooms) && HasConn(old(rooms[t]), s.ws) && unit.IsText() ==>
              && rooms == old(rooms) && admins == old(admins)
              && archives == old(archives)[t := Archived(old(archives[t]), Entry(stamp, s.name, unit.data), ARCHIVE_LENGTH)]
              && next == Continue(s.(chat := t))
              && out == BroadcastExcept(old(rooms[t]), s.ws, Sent(s.name, unit.data)))
        // any other frame from a member: leave the loop
        && (t in old(rooms) && HasConn(old(rooms[t]), s.ws) && !unit.IsText() ==>
              unchanged(this) && next == Break(s.(chat := t)) && out == [])
      // the loop only breaks while the session is still in the room its `chat` names
      ensures next.Break? ==> next.session.chat in rooms && HasConn(rooms[next.session.chat], s.ws)
      ensures !next.Crash? ==> next.session.name == s.name && next.session.ws == s.ws
      // no step writes an admin entry, and members only ever leave
      ensures admins == old(admins)
      ensures forall c :: c in rooms ==> c in old(rooms) && rooms[c].conns.Keys <= old(rooms[c].conns.Keys)
      ensures old(Owns(s)) && !next.Crash? ==> Owns(next.session)
    {
      var chat := unit.Target(s.chat);
      if Kicks(unit) {
        Kick(chat, unit.kickUser);
        return Continue(s.(chat := chat)), [];
      }
      if Ignored(unit) {
        return Continue(s.(chat := chat)), [];
      }
      next, out := Relay(s, unit, stamp);
    }

    /**
     * `del request.app['websockets'][chat][kick_user]` (views.py:136-137): one member leaves one
     * room. No other entry changes, so no room gains a member and every websocket keeps its owner.
     */
    method Kick(chat: string, kickUser: string)
      requires Valid() && chat in rooms && kickUser in rooms[chat].conns
      modifies this
      ensures Valid()
      ensures rooms == old(rooms)[chat := Remove(old(rooms[chat]), kickUser)]
      ensures admins == old(admins) && archives == old(archives)
      ensures forall c :: c in rooms ==> c in old(rooms) && rooms[c].conns.Keys <= old(rooms[c].conns.Keys)
      ensures forall ws, owner :: OwnedBy(old(rooms), ws, owner) ==> OwnedBy(rooms, ws, owner)
    {
      rooms := rooms[chat := Remove(rooms[chat], kickUser)];
    }

    /**
     * The `except` branch of the receive loop (views.py:138-161), for the room the `chat` variable
     * now names: a session no longer in that room is told it was kicked and the room is told it
     * left; a member's text is archived and sent to the other members; any other frame ends the
     * loop. A room that no longer exists raises an uncaught KeyError. No member dict changes.
     */
    method Relay(s: Session, unit: Inbound, stamp: string) returns (next: Step, out: seq<Delivery>)
      requires Valid()
      modifies this
      ensures Valid()
      ensures rooms == old(rooms) && admins == old(admins)
      ensures
        var t := unit.Target(s.chat);
        && (t !in old(rooms) ==> next == Crash && unchanged(this) && out == [])
        && (t in old(rooms) && !HasConn(old(rooms[t]), s.ws) ==>
              && unchanged(this) && next == Continue(s.(chat := t))
              && out == [Delivery(s.ws, Interrupt(s.name, t, KickMessage(old(admins[t]))))]
                        + Broadcast(old(rooms[t]), Disconnect(s.name, old(rooms[t].names))))
        && (t in old(rooms) && HasConn(old(rooms[t]), s.ws) && unit.IsText() ==>
              && rooms == old(rooms) && admins == old(admins)
              && archives == old(archives)[t := Archived(old(archives[t]), Entry(stamp, s.name, unit.data), ARCHIVE_LENGTH)]
              && next == Continue(s.(chat := t))
              && out == BroadcastExcept(old(rooms[t]), s.ws, Sent(s.name, unit.data)))
        && (t in old(rooms) && HasConn(old(rooms[t]), s.ws) && !unit.IsText() ==>
              unchanged(this) && next == Break(s.(chat := t)) && out == [])
    {
      var chat := unit.Target(s.chat);
      if chat !in rooms {
        return Crash, [];
      }
      var members := rooms[chat];
      if !HasConn(members, s.ws) {
        out := [Delivery(s.ws, Interrupt(s.name, chat, KickMessage(admins[chat])))]
               + Broadcast(members, Disconnect(s.name, UsersList(chat)));
        next := Continue(s.(chat := chat));
      } else if unit.IsText() {
        ArchiveMessage(chat, s.name, unit.data, stamp, ARCHIVE_LENGTH);
        out := BroadcastExcept(members, s.ws, Sent(s.name, unit.data));
        next := Continue(s.(chat := chat));
      } else {
        next, out := Break(s.(chat := chat)), [];
      }
    }

    /**
     * The teardown after the loop (views.py:166-176): with more than one member the leaver is
     * deleted and the rest are told; otherwise the room's dict and admin entry are deleted, while
     * its archive entry stays until a later join recreates the room. `del ...[name]` on a missing
     * name raises, which is reported as `crashed`.
     */
    method Leave(s: Session) returns (crashed: bool, out: seq<Delivery>)
      requires Valid() && s.chat in rooms
      modifies this
      ensures Valid()
      ensures var m := old(rooms[s.chat]);
        && (Count(m) > 1 && s.name in m.conns ==>
              && !crashed
              && rooms == old(rooms)[s.chat := Remove(m, s.name)]
              && admins == old(admins) && archives == old(archives)
              && out == Broadcast(rooms[s.chat], Disconnect(s.name, UsersList(s.chat))))
        && (Count(m) > 1 && s.name !in m.conns ==> crashed && unchanged(this) && out == [])
        && (Count(m) <= 1 ==>
              && !crashed && out == []
              && rooms == old(rooms) - {s.chat} && admins == old(admins) - {s.chat}
              && archives == old(archives) && s.chat in archives)
      // a session that still holds its own entry always gets out cleanly
      ensures old(Owns(s)) && old(HasConn(rooms[s.chat], s.ws)) ==> !crashed
    {
      var members := rooms[s.chat];
      if Count(members) > 1 {
        if s.name !in members.conns {
          return true, [];
        }
        rooms := rooms[s.chat := Remove(members, s.name)];
        crashed, out := false, Broadcast(rooms[s.chat], Disconnect(s.name, UsersList(s.chat)));
      } else {
        rooms := rooms - {s.chat};
        admins := admins - {s.chat};
        crashed, out := false, [];
      }
    }

    /**
     * A whole `index` call for a new websocket `ws` (views.py:55-178), run without other sessions
     * interleaving: the join, then the receive loop over the units `inbox` delivers (with one clock
     * reading each), then the teardown if the loop breaks. `Open` means the inbox ran out while the
     * loop was still waiting.
     */
    method Serve(name: string, chat: string, ws: Conn, inbox: seq<Inbound>, stamps: seq<string>)
      returns (status: Status, out: seq<Delivery>)
      requires Valid()
      requires |stamps| == |inbox|
      requires Unused(rooms, ws)
      modifies this
      ensures Valid()
      ensures status.Rejected? <==>
        !(3 <= |chat| <= 8)
        || (old(Populated(chat)) && (old(Count(rooms[chat])) >= MAX_USER || name in old(rooms[chat].conns)))
      ensures status.Rejected? ==>
        unchanged(this) && |out| == 1 && out[0].to == ws && out[0].event.Interrupt?
      // without kick commands the `chat` variable never moves, so the handler cannot crash
      ensures (forall i :: 0 <= i < |inbox| ==> inbox[i].Text? || inbox[i].Other?) ==> !status.Crashed?
      // an accepted join with nothing received yet: the joiner is registered and waiting
      ensures inbox == [] && !status.Rejected? ==>
        && status == Open(Session(name, chat, ws))
        && (old(Populated(chat)) ==>
              rooms == old(rooms)[chat := Insert(old(rooms[chat]), name, ws)] && admins == old(admins))
        && (!old(Populated(chat)) ==>
              rooms == old(rooms)[chat := Single(name, ws)] && admins == old(admins)[chat := name]
              && archives == old(archives)[chat := []])
    {
      var joined;
      joined, out := Join(name, chat, ws);
      if joined.None? {
        return Rejected, out;
      }
      var rest;
      status, rest := Listen(joined.value, inbox, stamps);
      out := out + rest;
    }

    /**
     * The receive loop of one joined session and its teardown (views.py:128-176), over the units
     * `inbox` delivers, with no other session acting in between. `Open` means the inbox ran out
     * while the loop was still waiting.
     */
    method Listen(session: Session, inbox: seq<Inbound>, stamps: seq<string>) returns (status: Status, out: seq<Delivery>)
      requires Valid() && Owns(session)
      requires |stamps| == |inbox|
      requires session.chat in rooms
      modifies this
      ensures Valid()
      ensures !status.Rejected?
      ensures status.Open? ==> status.session.name == session.name && status.session.ws == session.ws
      // an empty inbox: the loop is still waiting and nothing has happened
      ensures inbox == [] ==> status == Open(session) && unchanged(this) && out == []
      // without commands the session neither crashes nor moves: `chat` stays where it joined
      ensures (forall i :: 0 <= i < |inbox| ==> inbox[i].Text? || inbox[i].Other?) ==> !status.Crashed?
      ensures (forall i :: 0 <= i < |inbox| ==> inbox[i].Text? || inbox[i].Other?) && status.Open? ==>
        status.session == session
    {
      ghost var plain := forall i :: 0 <= i < |inbox| ==> inbox[i].Text? || inbox[i].Other?;
      var current := session;
      out := [];
      var i := 0;
      while i < |inbox|
        invariant 0 <= i <= |inbox|
        invariant Valid() && Owns(current)
        invariant current.name == session.name && current.ws == session.ws
        invariant plain ==> current == session && session.chat in rooms
        invariant i == 0 ==> current == session && unchanged(this) && out == []
      {
        var next, stepOut := Receive(current, inbox[i], stamps[i]);
        out := out + stepOut;
        match next
        case Crash =>
          return Crashed, out;
        case Break(last) =>
          var crashed, leaveOut := Leave(last);
          assert !crashed;
          return Closed, out + leaveOut;
        case Continue(s) =>
          current := s;
          i := i + 1;
      }
      status := Open(current);
    }
  }
}

=== FILE: orm_shortener.dfy ===
/**
 * The Django URL shortener of hw3/short_url_project: the `UrlShortener` model's table
 * (shortener/models.py) and the handlers `handler` (shorten a submitted URL for the logged-in user)
 * and `url_handler` (follow a short key and count the redirect), from shortener/views.py. The table
 * is the list of its records in insertion order.
 */
module OrmShortener {
  import opened Wrappers
  import opened UrlKeys
  import opened ShortLinks

  /** The user a record belongs to (`request.user`), by id. */
  type UserId = nat

  /** One `UrlShortener` record (shortener/models.py:5-11): the stored link, its owner, its redirects. */
  datatype Record = Record(link: Link, user: UserId, redirectCount: nat)

  /** The `url_original`/`url_short` columns of the table, which `find_url` reads. */
  function Links(records: seq<Record>): (links: seq<Link>)
    ensures |links| == |records| && forall i :: 0 <= i < |records| ==> links[i] == records[i].link
  {
    if records == [] then [] else [records[0].link] + Links(records[1..])
  }

  /** The table after one redirect through `key`: that record's `redirect_count` is one higher. */
  function Counted(records: seq<Record>, key: string): (r: seq<Record>)
    ensures |r| == |records|
    ensures forall i :: 0 <= i < |r| ==>
      r[i] == if records[i].link.short == key then records[i].(redirectCount := records[i].redirectCount + 1) else records[i]
  {
    if records == [] then []
    else
      var head := if records[0].link.short == key then records[0].(redirectCount := records[0].redirectCount + 1) else records[0];
      [head] + Counted(records[1..], key)
  }

  /** Counting a redirect changes no URL and no key: `find_url` and the table invariant see the same table. */
  lemma {:induction false} CountedKeepsLinks(records: seq<Record>, key: string)
    ensures Links(Counted(records, key)) == Links(records)
  {
    if records != [] {
      CountedKeepsLinks(records[1..], key);
      assert Counted(records, key)[1..] == Counted(records[1..], key);
      assert Links(Counted(records, key))[1..] == Links(Counted(records, key)[1..]);
    }
  }

  /** Saving one more record adds its link at the end of the columns `find_url` reads. */
  lemma {:induction false} LinksAppend(records: seq<Record>, saved: Record)
    ensures Links(records + [saved]) == Links(records) + [saved.link]
  {
    if records != [] {
      LinksAppend(records[1..], saved);
      assert (records + [saved])[1..] == records[1..] + [saved];
    }
  }

  /** Saving a record whose checked URL sits under a drawn key `find_url` does not know keeps the table valid. */
  lemma {:induction false} SaveFresh(records: seq<Record>, saved: Record)
    requires ValidLinks(Links(records)) && CheckUrl(saved.link.original) && IsDraw(saved.link.short, MIN_KEY, MAX_KEY)
    requires !TakenIn(Links(records))(saved.link.short)
    ensures forall i :: 0 <= i < |records| ==> records[i].link.short != saved.link.short
    ensures ValidLinks(Links(records + [saved]))
  {
    LinksAppend(records, saved);
    StoreFresh(Links(records), saved.link);
  }

  class UrlStore {
    /** The rows of `shortener_urlshortener`, oldest first. */
    var records: seq<Record>

    /** The handlers' invariant on the links, so `objects.get(url_short=key)` finds exactly one. */
    ghost predicate Valid()
      reads this
    {
      ValidLinks(Links(records))
    }

    /** An empty table. */
    constructor ()
      ensures Valid() && records == []
    {
      records := [];
    }

    /**
     * `handler` (views.py:83-114) for the logged-in `user`. A POST lower-cases the URL; when it
     * passes `check_url`, one record (lowered URL, fresh key, user, zero redirects) is saved and the
     * short link `http://<host>/<key>` shown; otherwise nothing is saved and the warning shown.
     */
    method Handler(request: Request, user: UserId, host: string, draws: seq<string>) returns (page: Page)
      requires Valid()
      requires forall i :: 0 <= i < |draws| ==> IsDraw(draws[i], MIN_KEY, MAX_KEY)
      modifies this
      ensures Valid()
      ensures request.Get? ==> page == Blank && records == old(records)
      ensures request.Post? && !CheckUrl(Lower(request.url)) ==>
        records == old(records) && page == Index(SCHEME_ERROR, Lower(request.url), "")
      ensures request.Post? && CheckUrl(Lower(request.url)) ==>
        match RandomUrl(TakenIn(Links(old(records))), draws, MIN_KEY, MAX_KEY)
        case None => records == old(records) && page == Unfinished
        case Some(key) =>
          && records == old(records) + [Record(Link(Lower(request.url), key), user, 0)]
          && (forall i :: 0 <= i < |old(records)| ==> old(records)[i].link.short != key)
          && page == Index("", Lower(request.url), "http://" + host + "/" + key)
    {
      if request.Get? {
        return Blank;
      }
      var original := Lower(request.url);
      if !CheckUrl(original) {
        return Index(SCHEME_ERROR, original, "");
      }
      var key := RandomUrl(TakenIn(Links(records)), draws, MIN_KEY, MAX_KEY);
      if key.None? {
        return Unfinished;
      }
      var saved := Record(Link(original, key.value), user, 0);
      SaveFresh(records, saved);
      records := records + [saved];
      page := Index("", original, "http://" + host + "/" + key.value);
    }

    /**
     * `url_handler` (views.py:117-131): for a stored key, add one to that record's
     * `redirect_count` and redirect to its original URL; for an unknown key redirect to `/` and
     * change nothing.
     */
    method UrlHandler(key: string) returns (location: string)
      requires Valid()
      modifies this
      ensures Valid()
      ensures (exists i :: 0 <= i < |old(records)| && old(records)[i].link.short == key) ==>
        && records == Counted(old(records), key)
        && FindUrl(Links(old(records)), key) == Some(location)
        && exists i :: 0 <= i < |old(records)| && old(records)[i].link == Link(location, key)
      ensures (forall i :: 0 <= i < |old(records)| ==> old(records)[i].link.short != key) ==>
        records == old(records) && location == "/"
    {
      TakenIffStored(Links(records), key);
      if TakenIn(Links(records))(key) {
        CountedKeepsLinks(records, key);
        records := Counted(records, key);
        location := FindUrl(Links(records), key).value;
      } else {
        location := "/";
      }
    }
  }
}

=== FILE: short_links.dfy ===
/**
 * What the two URL shorteners, hw2/hw2.py and hw3/short_url_project/shortener/views.py, share
 * apart from the key helpers: the (original URL, short key) pair each stored row holds, the lookup
 * `find_url` on a table of them, the table invariant the handlers keep, and the request and page
 * shapes of `handler`.
 */
module ShortLinks {
  import opened Wrappers
  import opened UrlKeys

  /** The `url_original` and `url_short` columns of one stored row. */
  datatype Link = Link(original: string, short: string)

  /** The request a handler sees: its method and, for POST, the form field `url`. */
  datatype Request = Get | Post(url: string)

  /** What `handler` renders: `index.html` with its context, or without one (GET). */
  datatype Page =
    | Index(message: string, currentUrl: string, shortUrl: string)
    | Blank
    | Unfinished  // `random_url` has not found a free key within the given draws

  /** The warning `handler` shows for a URL whose scheme is refused (hw2/hw2.py:124-125). */
  const SCHEME_ERROR: string := "Ваш URL не прошел проверку. Допускаются следующие схемы: http, https, ftp."

  /**
   * `find_url` (hw2/hw2.py:58-73, hw3/short_url_project/shortener/views.py:35-50): `SELECT ... WHERE
   * url_short = key` and `fetchone()`. The result is the original URL of the first matching row, or
   * `None` where the Python code returns `False`.
   */
  function FindUrl(links: seq<Link>, key: string): (r: Option<string>)
    ensures r.None? <==> forall i :: 0 <= i < |links| ==> links[i].short != key
    ensures r.Some? ==> exists i :: 0 <= i < |links| && links[i].short == key && r.value == links[i].original
                                    && forall j :: 0 <= j < i ==> links[j].short != key
  {
    if links == [] then None
    else if links[0].short == key then Some(links[0].original)
    else
      var r := FindUrl(links[1..], key);
      assert forall i :: 1 <= i < |links| ==> links[i] == links[1..][i - 1];
      r
  }

  /** Python truthiness of what `find_url` returns: a non-empty string. */
  predicate Truthy(r: Option<string>)
  {
    r.Some? && r.value != ""
  }

  /** `find_url(key)` is truthy on this table: the keys `random_url` must avoid. */
  function TakenIn(links: seq<Link>): string -> bool
  {
    k => Truthy(FindUrl(links, k))
  }

  /**
   * What the handlers keep: every stored original passed `check_url` (so it is never empty and
   * `find_url` is truthy exactly on stored keys), every key is a `random_url` draw, and no key is
   * stored twice.
   */
  ghost predicate ValidLinks(links: seq<Link>)
  {
    && (forall i :: 0 <= i < |links| ==> CheckUrl(links[i].original) && IsDraw(links[i].short, MIN_KEY, MAX_KEY))
    && (forall i, j :: 0 <= i < j < |links| ==> links[i].short != links[j].short)
  }

  /** In a table the handlers built, `find_url` is truthy exactly on the stored keys. */
  lemma {:induction false} TakenIffStored(links: seq<Link>, key: string)
    requires ValidLinks(links)
    ensures TakenIn(links)(key) <==> exists i :: 0 <= i < |links| && links[i].short == key
  {
    var r := FindUrl(links, key);
    if r.Some? {
      var i :| 0 <= i < |links| && links[i].short == key && r.value == links[i].original;
      assert CheckUrl(links[i].original);
    }
  }

  /** Appending a checked link under a key no row holds keeps the table valid. */
  lemma {:induction false} AppendValid(links: seq<Link>, link: Link)
    requires ValidLinks(links) && CheckUrl(link.original) && IsDraw(link.short, MIN_KEY, MAX_KEY)
    requires forall i :: 0 <= i < |links| ==> links[i].short != link.short
    ensures ValidLinks(links + [link])
  {
    var after := links + [link];
    assert forall i :: 0 <= i < |links| ==> after[i] == links[i];
  }

  /** Storing a checked URL under a drawn key that `find_url` does not know keeps the table valid. */
  lemma {:induction false} StoreFresh(links: seq<Link>, link: Link)
    requires ValidLinks(links) && CheckUrl(link.original) && IsDraw(link.short, MIN_KEY, MAX_KEY)
    requires !TakenIn(links)(link.short)
    ensures forall i :: 0 <= i < |links| ==> links[i].short != link.short
    ensures ValidLinks(links + [link])
  {
    TakenIffStored(links, link.short);
    AppendValid(links, link);
  }
}

=== FILE: sql_shortener.dfy ===
/**
 * The single-file URL shortener of hw2/hw2.py: the SQL table `url_shortener` and the two request
 * handlers, `handler` (shorten a submitted URL) and `url_handler` (follow a short key). The table
 * is the list of its rows in insertion order; the `id` column is a row's position.
 */
module SqlShortener {
  import opened Wrappers
  import opened UrlKeys
  import opened ShortLinks

  class UrlTable {
    /** The rows of `url_shortener` (hw2/hw2.py:30-36), oldest first. */
    var rows: seq<Link>

    ghost predicate Valid()
      reads this
    {
      ValidLinks(rows)
    }

    /** `create_table()` on a fresh database (hw2/hw2.py:39-44). */
    constructor ()
      ensures Valid() && rows == []
    {
      rows := [];
    }

    /**
     * `handler` (hw2/hw2.py:105-130). A POST lower-cases the URL; when it passes `check_url`, one row
     * (lowered URL, fresh key) is inserted and the short link `http://<host>/<key>` shown; otherwise
     * nothing is inserted and the scheme warning shown. A GET shows the empty page.
     */
    method Handler(request: Request, host: string, draws: seq<string>) returns (page: Page)
      requires Valid()
      requires forall i :: 0 <= i < |draws| ==> IsDraw(draws[i], MIN_KEY, MAX_KEY)
      modifies this
      ensures Valid()
      ensures request.Get? ==> page == Blank && rows == old(rows)
      ensures request.Post? && !CheckUrl(Lower(request.url)) ==>
        rows == old(rows) && page == Index(SCHEME_ERROR, Lower(request.url), "")
      ensures request.Post? && CheckUrl(Lower(request.url)) ==>
        match RandomUrl(TakenIn(old(rows)), draws, MIN_KEY, MAX_KEY)
        case None => rows == old(rows) && page == Unfinished
        case Some(key) =>
          && rows == old(rows) + [Link(Lower(request.url), key)]
          && (forall i :: 0 <= i < |old(rows)| ==> old(rows)[i].short != key)
          && page == Index("", Lower(request.url), "http://" + host + "/" + key)
    {
      if request.Get? {
        return Blank;
      }
      var original := Lower(request.url);
      if !CheckUrl(original) {
        return Index(SCHEME_ERROR, original, "");
      }
      var key := RandomUrl(TakenIn(rows), draws, MIN_KEY, MAX_KEY);
      if key.None? {
        return Unfinished;
      }
      StoreFresh(rows, Link(original, key.value));
      rows := rows + [Link(original, key.value)];
      page := Index("", original, "http://" + host + "/" + key.value);
    }

    /**
     * `url_handler` (hw2/hw2.py:133-143): the redirect target for a short key, the stored original
     * URL when `find_url` is truthy and `/` otherwise. It reads the table and changes nothing.
     */
    function UrlHandler(key: string): (location: string)
      reads this
      requires Valid()
      ensures (exists i :: 0 <= i < |rows| && rows[i].short == key && location == rows[i].original)
              || (location == "/" && forall i :: 0 <= i < |rows| ==> rows[i].short != key)
      ensures location != "/" <==> exists i :: 0 <= i < |rows| && rows[i].short == key
    {
      var found := FindUrl(rows, key);
      if Truthy(found) then found.value else "/"
    }
  }
}

=== FILE: url_keys.dfy ===
/**
 * The helpers the two URL shorteners share, word for word, in hw2/hw2.py and
 * hw3/short_url_project/shortener/views.py: the scheme check `check_url`, the ASCII lower-casing the
 * handlers apply first, and the retry-until-unused key generator `random_url`.
 */
module UrlKeys {
  import opened Wrappers

  /** The tuple `('http://', 'https://', 'ftp://')` that `check_url` passes to `str.startswith`. */
  const Schemes: seq<string> := ["http://", "https://", "ftp://"]

  /** `randrange(min_, max_)` with the defaults `min_=5, max_=8`: key lengths 5, 6 and 7. */
  const MIN_KEY: nat := 5
  const MAX_KEY: nat := 8

  /** `str.startswith` given a tuple: `s` begins with one of `prefixes`. */
  function StartsWithAny(s: string, prefixes: seq<string>): (ok: bool)
    ensures ok <==> exists i :: 0 <= i < |prefixes| && prefixes[i] <= s
  {
    if prefixes == [] then false
    else prefixes[0] <= s || StartsWithAny(s, prefixes[1..])
  }

  /**
   * `check_url` (hw3/short_url_project/shortener/views.py:53-60, hw2/hw2.py:76-83): a plain prefix
   * test. Upper-case schemes fail it, and nothing after the prefix is looked at.
   */
  function CheckUrl(url: string): (ok: bool)
    ensures ok <==> "http://" <= url || "https://" <= url || "ftp://" <= url
    ensures ok ==> |url| >= 6
  {
    var ok := StartsWithAny(url, Schemes);
    assert Schemes[0] == "http://" && Schemes[1] == "https://" && Schemes[2] == "ftp://";
    ok
  }

  /** Any text at all may follow an accepted scheme prefix, and nothing else is accepted. */
  lemma CheckUrlIsPrefixOnly(url: string)
    ensures CheckUrl(url) <==> exists i, rest :: 0 <= i < |Schemes| && url == Schemes[i] + rest
  {
    if CheckUrl(url) {
      var i :| 0 <= i < |Schemes| && Schemes[i] <= url;
      assert url == Schemes[i] + url[|Schemes[i]|..];
    }
  }

  /** The lower-casing the model applies to a character: ASCII `A`-`Z` to `a`-`z`. */
  function LowerChar(c: char): (d: char)
    ensures 'A' <= c <= 'Z' ==> 'a' <= d <= 'z' && d as int - c as int == 32
    ensures !('A' <= c <= 'Z') ==> d == c
  {
    if 'A' <= c <= 'Z' then (c as int + 32) as char else c
  }

  /** `str.lower()` on ASCII text (hw2/hw2.py:116, hw3/short_url_project/shortener/views.py:97). */
  function Lower(s: string): (r: string)
    ensures |r| == |s| && forall i :: 0 <= i < |s| ==> r[i] == LowerChar(s[i])
  {
    if s == [] then [] else [LowerChar(s[0])] + Lower(s[1..])
  }

  /** Lower-casing a prefix is the prefix of the lower-cased string. */
  lemma LowerPrefix(s: string, k: nat)
    requires k <= |s|
    ensures Lower(s)[..k] == Lower(s[..k])
  {
  }

  /**
   * Because the handlers lower-case before checking, they accept a URL exactly when some scheme
   * matches its first characters without regard to case: `HTTP://` passes there, not in `check_url`.
   */
  lemma {:induction false} LoweredCheckIgnoresCase(url: string)
    ensures CheckUrl(Lower(url)) <==>
      exists i :: 0 <= i < |Schemes| && |Schemes[i]| <= |url| && Lower(url[..|Schemes[i]|]) == Schemes[i]
  {
    forall i | 0 <= i < |Schemes| && |Schemes[i]| <= |url|
      ensures Schemes[i] <= Lower(url) <==> Lower(url[..|Schemes[i]|]) == Schemes[i]
    {
      LowerPrefix(url, |Schemes[i]|);
    }
  }

  /** A character of `ascii_letters + digits`. */
  predicate IsKeyChar(c: char)
  {
    'a' <= c <= 'z' || 'A' <= c <= 'Z' || '0' <= c <= '9'
  }

  /** A string `random_url(minLen, maxLen)` can draw: a length in `[minLen, maxLen - 1]`, letters and digits only. */
  predicate IsDraw(key: string, minLen: nat, maxLen: nat)
  {
    minLen <= |key| < maxLen && forall i :: 0 <= i < |key| ==> IsKeyChar(key[i])
  }

  /**
   * `random_url` (hw3/short_url_project/shortener/views.py:63-79, hw2/hw2.py:86-102). The random
   * strings it would draw, in order, are the parameter `draws`; `taken` is the truthiness of
   * `find_url` on the store. The first draw that is not taken is the key; `None` stands for a
   * stream whose every draw collided. `random_url` recurses once per collision, so a long enough run
   * of collisions ends in a RecursionError that the handlers do not catch; `None` models that outcome.
   */
  function RandomUrl(taken: string -> bool, draws: seq<string>, minLen: nat, maxLen: nat): (key: Option<string>)
    requires forall i :: 0 <= i < |draws| ==> IsDraw(draws[i], minLen, maxLen)
    ensures key.Some? ==> IsDraw(key.value, minLen, maxLen) && !taken(key.value)
    ensures key.Some? ==>
      exists i :: 0 <= i < |draws| && draws[i] == key.value && forall j :: 0 <= j < i ==> taken(draws[j])
    ensures key.None? <==> forall i :: 0 <= i < |draws| ==> taken(draws[i])
  {
    if draws == [] then None
    else if taken(draws[0]) then
      var key := RandomUrl(taken, draws[1..], minLen, maxLen);
      assert forall i :: 1 <= i < |draws| ==> draws[i] == draws[1..][i - 1];
      key
    else Some(draws[0])
  }
}

=== FILE: wrappers.dfy ===
/** Option, for lookups that may find nothing. */
module Wrappers {
  datatype Option<+T> = None | Some(value: T)
}
